=== FILE: README.md ===
# UserBusiness — registration and login, modelled in Dafny

This project models `UserBusiness`, the business layer of a small
user-account service. `createUser` validates a registration, generates an id,
hashes the password, stores the account and returns an access token.
`login` looks an account up by email, compares the password with the stored
hash and returns a token for the stored id and role. Errors are
`(code, message)` pairs: 400 for bad input, 404 for an unknown email, 401
for a wrong password. A collaborator's own error passes through unchanged.

The four collaborators are reduced to their answers during one request
(`Services.Collaborators`): the id generator, the hash manager (`hash`,
`compare`), the token issuer and the user database. The database is a map
from email to `Account`. It may refuse a write or a read, as decided by its
`createFault` / `lookupFault` functions. Each operation returns a `Run`:
the outcome (`Issued(token)` or `Failed(error)`), every collaborator call
made, in order, and the store afterwards. The ordering properties and the
"no call was made" properties are stated over that trace.

Modules:
- `Wrappers`, `Errors` (wrappers.dfy): `Option`, `Result` and `Error`.
- `JsString` (js_string.dfy): JavaScript `length` and `indexOf`, in UTF-16 code units.
- `User` (user.dfy): `Role`, the input records, `Account`, `Claims`, the store.
- `Services` (services.dfy): the collaborators, the call trace, the store's create and lookup.
- `UserBusiness` (user_business.dfy): the validation rules, `CreateUser`, `Login`.
- `UserBusinessProperties` (user_business_properties.dfy): the lemmas.

Three behaviours of the code that a reader might not expect:
- The password rule counts UTF-16 code units (`password.length`), not characters.
  A password of three astral-plane characters passes it.
- The code gives a store failure no class of its own. Any error the database
  raises is passed through, exactly like a rejection by the hasher.
- The code does not promise a non-empty token or a hash different from the
  plaintext. Those are up to the collaborators, and the model does not prove them.

`src/business/entities/User.ts` is not part of this model. The `UserRole`
values are taken to be the strings `ADMIN` and `NORMAL`.

## Model

| member | source | states |
|---|---|---|
| `UserBusiness.ValidateRegistration` | src/business/UserBusiness.ts:19-42 | Accepts exactly the inputs with all four fields non-empty, a password of at least 6 code units, an `@` in the email and a role of exactly ADMIN or NORMAL. Every rejection is a 400. An accepted input keeps its fields, with the role parsed to the one the input string names. |
| `UserBusiness.FirstBroken` | src/business/UserBusiness.ts:19-42 | Returns the position of the first rule, in checking order, that the input breaks: every earlier rule holds and the one at that position fails. |
| `UserBusinessProperties.FirstViolationWins` | src/business/UserBusiness.ts:19-42 | Validation fails exactly when some rule is broken, and its error is the message of the FIRST broken rule in order. So an empty password gives "must be informed", not the length error. |
| `UserBusinessProperties.RuleErrorsDistinct` | src/business/UserBusiness.ts:25-41 | The four validation messages are pairwise different, so the message identifies which rule failed. |
| `UserBusinessProperties.PasswordLengthInChars` | src/business/UserBusiness.ts:29-31 | The length rule in characters: at least 6 characters always passes, fewer than 3 never passes. For text without surrogate pairs, it passes exactly at 6 characters or more. |
| `JsString.Length` | src/business/UserBusiness.ts:29 | `password.length` in UTF-16 code units: at least the number of characters and at most twice it. |
| `JsString.LengthCountsChars` | src/business/UserBusiness.ts:29 | The code-unit length equals the character count exactly when no character lies above U+FFFF. |
| `JsString.FirstIndex` | src/business/UserBusiness.ts:33 | Returns the character index of the first occurrence, or -1 exactly when the character is absent. |
| `JsString.IndexOf` | src/business/UserBusiness.ts:33 | `indexOf` is -1 exactly when the character is absent. Otherwise it is the code-unit offset of the first occurrence. |
| `User.ParseRole` | src/business/UserBusiness.ts:37-42 | Accepts a role string exactly when it is the name of some role, and returns that role. |
| `User.RoleRoundTrip` | src/business/UserBusiness.ts:37-39 | Parsing a role's name gives back that role. |
| `Services.StoreCreate` | src/business/UserBusiness.ts:48-54 | The database write either fails with the database's own error, or files the account under its email, adding only that key and leaving every other entry as it was. |
| `Services.StoreLookup` | src/business/UserBusiness.ts:71 | The database read either fails with the database's own error, or returns the account filed under the email, which is absent exactly when the email is not a key. |
| `UserBusiness.CreateUser` | src/business/UserBusiness.ts:17-62 | Invalid input gives the validation error (the first broken rule) with no collaborator call. A token is issued exactly when validation passes, the hash resolves and the database accepts the write of (generated id, email, name, hash, role). Every failure leaves the store unchanged. |
| `UserBusinessProperties.RegisterKeepsStoreKeyed` | src/business/UserBusiness.ts:48-54 | A store where every account is filed under its own email stays that way after a registration. |
| `UserBusinessProperties.RegisterCallOrder` | src/business/UserBusiness.ts:44-61 | The calls are a prefix of id → hash → create → token, so each is made at most once. A token is issued exactly when all four ran. The only store write is the third call. |
| `UserBusinessProperties.RegisterSuccess` | src/business/UserBusiness.ts:44-61 | On success, the trace is exactly generate, hash(input password), create(generated id, input email, input name, the hash, input role), token(id, role). The returned token is the one issued for those claims, and the store gains exactly that account. |
| `UserBusinessProperties.RegisterStoreEffect` | src/business/UserBusiness.ts:48-54 | A successful registration adds or replaces the input email's entry only. Every other entry is unchanged. |
| `UserBusinessProperties.RegisterPassThrough` | src/business/UserBusiness.ts:46-54 | A rejection by the hasher or by the database ends registration with that same error. No later call is made, no token is issued, and the store is unchanged. |
| `UserBusiness.Login` | src/business/UserBusiness.ts:64-92 | The store is never changed. A missing email or password gives the 400 with no call. An unknown email gives 404 after only the lookup. A token is issued exactly when the email is present, the lookup succeeds and the compare answers true, and it carries the STORED id and role. |
| `UserBusinessProperties.LoginCallOrder` | src/business/UserBusiness.ts:71-91 | The calls are a prefix of lookup → compare → token. A token is issued exactly when all three ran, so there is no compare without a successful lookup and no token without a successful compare. |
| `UserBusinessProperties.LoginRejections` | src/business/UserBusiness.ts:71-84 | A rejected lookup or compare passes its error through. A compare answering false gives 401 "Invalid credentials!" and issues no token. |
| `UserBusinessProperties.LoginSuccess` | src/business/UserBusiness.ts:86-91 | A successful login's trace is lookup(email), compare(input password, stored hash), token(stored id, stored role). |
| `UserBusinessProperties.RegisteredUserCanLogIn` | src/business/UserBusiness.ts:17-92 | If the hasher recognises its own hash, logging in right after a registration with the same email and password succeeds, and its token is issued for the same claims (stored id and role) as the registration token. |
| `UserBusinessProperties.WrongPasswordAfterRegistration` | src/business/UserBusiness.ts:77-84 | After registering, a login with a password the hasher rejects against the stored hash is refused with 401. |

## Left out

- Collaborator internals (uuid generation, bcrypt hashing, JWT signing, SQL persistence) are left out. Each appears only as its answer to one call.
- A throw from the synchronous `generate` and `generateToken` is not modelled. Both are treated as always answering.
- `async`/`await` and concurrent requests are left out. Awaited calls are sequential steps of one function.
- An absent, `null` or `undefined` field is represented by the empty string. Other falsy or non-string values (numbers, objects) sent by a caller are not modelled.
- JavaScript strings may hold lone surrogates. Dafny strings of Unicode scalar values cannot, so such input is not modelled.
- After a rejected write, the model's store is unchanged. What a real database leaves behind is up to the database, and the core makes no compensating action.
- Id uniqueness, email uniqueness, the hash differing from the plaintext, `compare` validating `hash`, and a non-empty token are collaborator guarantees. They are not proved. The round-trip lemma takes "compare accepts the hash of the same password" as an explicit hypothesis.
- Services.StoreCreate: a write the database accepts for an email already on file replaces that account (last write wins). The code leaves duplicates to the database: a unique email column rejects the write, while a table without one keeps both rows, and the lookup may then return the old one. `UserBusinessProperties.RegisteredUserCanLogIn` and `UserBusinessProperties.WrongPasswordAfterRegistration` depend on this choice when the email was already registered.
- Stored roles are assumed to be ADMIN or NORMAL (`Account.role` is a `Role`). The code forwards whatever role the database row holds, and no proved property depends on this.
- The `CustomError` class and the mapping to HTTP statuses are left out. Only the `(code, message)` pair is kept.
- Repeating a rejected input gives the same error because validation is a pure function. No separate member states this.

=== FILE: js_string.dfy ===
/** The two JavaScript string operations the validator relies on.

    A Dafny `char` is a Unicode scalar value, whereas a JavaScript string is a
    sequence of UTF-16 code units: a character above U+FFFF takes two of them.
    `length` and `indexOf` are stated in code units, as JavaScript computes them. */
module JsString {

  /** The number of UTF-16 code units that encode `c`. */
  function CodeUnits(c: char): nat
  {
    if c as int > 0xFFFF then 2 else 1
  }

  /** `s.length` in JavaScript: the number of UTF-16 code units of `s`. */
  function Length(s: string): (n: nat)
    ensures |s| <= n <= 2 * |s|
  {
    if s == [] then 0 else CodeUnits(s[0]) + Length(s[1..])
  }

  /** A string made only of characters of the Basic Multilingual Plane. */
  predicate InBmp(s: string)
  {
    forall i :: 0 <= i < |s| ==> s[i] as int <= 0xFFFF
  }

  /** Length counts characters exactly when no character needs a surrogate pair. */
  lemma {:induction false} LengthCountsChars(s: string)
    ensures Length(s) == |s| <==> InBmp(s)
  {
    if s != [] {
      LengthCountsChars(s[1..]);
      assert InBmp(s) <==> s[0] as int <= 0xFFFF && InBmp(s[1..]) by {
        if InBmp(s) {
          forall i | 0 <= i < |s[1..]| ensures s[1..][i] as int <= 0xFFFF {
            assert s[1..][i] == s[i + 1];
          }
        }
        if s[0] as int <= 0xFFFF && InBmp(s[1..]) {
          forall i | 0 <= i < |s| ensures s[i] as int <= 0xFFFF {
            if i > 0 {
              assert s[i] == s[1..][i - 1];
            }
          }
        }
      }
    }
  }

  /** The index, in characters, of the first occurrence of `c` in `s`, or -1. */
  function FirstIndex(s: string, c: char): (k: int)
    ensures -1 <= k < |s|
    ensures k == -1 <==> c !in s
    ensures 0 <= k < |s| ==> s[k] == c && forall j :: 0 <= j < k ==> s[j] != c
  {
    if s == [] then -1
    else if s[0] == c then 0
    else
      var j := FirstIndex(s[1..], c);
      assert s == [s[0]] + s[1..];
      if j == -1 then -1
      else
        j + 1
  }

  /** `s.indexOf(c)` in JavaScript, for a character `c` that is one code unit
      long: the code-unit offset of the first occurrence of `c`, or -1. */
  function IndexOf(s: string, c: char): (i: int)
    requires c as int <= 0xFFFF
    ensures i == -1 <==> c !in s
    ensures i != -1 ==> exists k :: 0 <= k < |s| && s[k] == c && c !in s[..k] && i == Length(s[..k])
  {
    var k := FirstIndex(s, c);
    if k == -1 then -1 else Length(s[..k])
  }
}

=== FILE: services.dfy ===
/** The four collaborators of the business layer (id generator, hash manager,
    authenticator, user database), reduced to their effect on one request, and
    the trace of calls a request makes to them. */
module Services {
  import opened Wrappers
  import opened Errors
  import opened User

  /** What each collaborator answers during one request.
      The awaited ones (hash, compare, create, lookup) may reject with an error;
      the synchronous id generator and token issuer always answer.
      `createFault` and `lookupFault` are the database's own decision to reject a
      write or a read of a given store, for whatever reason it has. */
  datatype Collaborators = Collaborators(
    generateId: () -> string,
    hash: string -> Result<string, Error>,
    compare: (string, string) -> Result<bool, Error>,
    generateToken: Claims -> string,
    createFault: (Store, Account) -> Option<Error>,
    lookupFault: (Store, string) -> Option<Error>)

  /** One call made to a collaborator, with its arguments. */
  datatype Call =
    | GenerateId
    | Hash(plain: string)
    | InsertUser(account: Account)
    | GetUserByEmail(email: string)
    | Compare(plain: string, hashed: string)
    | GenerateToken(claims: Claims)

  /** The kind of a call, ignoring its arguments. */
  datatype CallKind = IdKind | HashKind | CreateKind | LookupKind | CompareKind | TokenKind

  function Kind(c: Call): CallKind
  {
    match c
    case GenerateId => IdKind
    case Hash(_) => HashKind
    case InsertUser(_) => CreateKind
    case GetUserByEmail(_) => LookupKind
    case Compare(_, _) => CompareKind
    case GenerateToken(_) => TokenKind
  }

  /** The kinds of a trace of calls, in order. */
  function Kinds(calls: seq<Call>): seq<CallKind>
  {
    seq(|calls|, i requires 0 <= i < |calls| => Kind(calls[i]))
  }

  /** The database's `createUser`: the new account is filed under its email,
      unless the database rejects the write. */
  function StoreCreate(env: Collaborators, store: Store, account: Account): (r: Result<Store, Error>)
    ensures r.Failure? <==> env.createFault(store, account).Some?
    ensures r.Failure? ==> r.error == env.createFault(store, account).value
    ensures r.Success? ==> account.email in r.value && r.value[account.email] == account
    ensures r.Success? ==> r.value.Keys == store.Keys + {account.email}
    ensures r.Success? ==> forall e :: e in store && e != account.email ==> r.value[e] == store[e]
  {
    match env.createFault(store, account)
    case Some(e) => Failure(e)
    case None => Success(store[account.email := account])
  }

  /** The database's `getUserByEmail`: the account filed under `email`, if any,
      unless the database rejects the read. */
  function StoreLookup(env: Collaborators, store: Store, email: string): (r: Result<Option<Account>, Error>)
    ensures r.Failure? <==> env.lookupFault(store, email).Some?
    ensures r.Failure? ==> r.error == env.lookupFault(store, email).value
    ensures r.Success? ==> (r.value.Some? <==> email in store)
    ensures r.Success? && r.value.Some? ==> r.value.value == store[email]
  {
    match env.lookupFault(store, email)
    case Some(e) => Failure(e)
    case None => if email in store then Success(Some(store[email])) else Success(None)
  }
}

=== FILE: user.dfy ===
/** The user entities the business layer works with: the role enumeration,
    the two input records, the persisted account and the token claims.
    Role values are the strings "ADMIN" and "NORMAL". */
module User {
  import opened Wrappers

  /** The closed set of account roles. */
  datatype Role = ADMIN | NORMAL

  /** The string value of a role, as it arrives in input and is stored. */
  function RoleName(r: Role): string
  {
    match r
    case ADMIN => "ADMIN"
    case NORMAL => "NORMAL"
  }

  /** The role a raw string denotes, if any: only an exact match is accepted. */
  function ParseRole(s: string): (r: Option<Role>)
    ensures r.Some? <==> exists role: Role :: RoleName(role) == s
    ensures r.Some? ==> RoleName(r.value) == s
  {
    if s == RoleName(ADMIN) then Some(ADMIN)
    else if s == RoleName(NORMAL) then Some(NORMAL)
    else None
  }

  /** Parsing undoes naming, so every role survives a trip through its string. */
  lemma RoleRoundTrip(r: Role)
    ensures ParseRole(RoleName(r)) == Some(r)
  {
  }

  /** Registration input as received. Every field is raw text, and an absent or
      empty field is the empty string. */
  datatype UserInput = UserInput(name: string, email: string, password: string, role: string)

  /** Login input as received; an absent or empty field is the empty string. */
  datatype LoginInput = LoginInput(email: string, password: string)

  /** A persisted account. `password` holds the hash produced at registration. */
  datatype Account = Account(id: string, email: string, name: string, password: string, role: Role)

  /** The identity and role a token is issued for. */
  datatype Claims = Claims(id: string, role: Role)

  /** The account store, keyed by email. */
  type Store = map<string, Account>

  /** Every account is filed under its own email. */
  predicate KeyedByEmail(store: Store)
  {
    forall e :: e in store ==> store[e].email == e
  }
}

=== FILE: user_business.dfy ===
/** The business layer: registration (`createUser`) and login.

    Each operation is a function of the collaborators' answers, the store and
    the input. It returns a `Run`: how the request ended, every collaborator
    call it made in order, and the store afterwards. */
module UserBusiness {
  import opened Wrappers
  import opened Errors
  import opened User
  import opened Services
  import JsString

  const MissingFields := "'name', 'email', 'password' and 'role', must be informed!"
  const ShortPassword := "Your password must have 6 characters at least"
  const InvalidEmail := "Invalid email"
  const InvalidRole := "'role' must be 'NORMAL' or 'ADMIN'"
  const MissingCredentials := "'email' and 'password' must be informed!"
  const UserNotFound := "User Not Found!"
  const InvalidCredentials := "Invalid credentials!"

  /** The terminal states of a request. */
  datatype Outcome = Issued(token: string) | Failed(error: Error)

  /** A finished request. */
  datatype Run = Run(outcome: Outcome, calls: seq<Call>, store: Store)

  // ---------------------------------------------------------------------------
  // Registration rules

  /** The registration rules, each with its own rejection message. */
  datatype Rule = Presence | PasswordLength | EmailFormat | RoleValue

  /** The order in which the rules are checked. */
  const Order: seq<Rule> := [Presence, PasswordLength, EmailFormat, RoleValue]

  /** What each rule demands of the input. */
  predicate Holds(rule: Rule, u: UserInput)
  {
    match rule
    case Presence => u.name != "" && u.email != "" && u.password != "" && u.role != ""
    case PasswordLength => JsString.Length(u.password) >= 6
    case EmailFormat => '@' in u.email
    case RoleValue => ParseRole(u.role).Some?
  }

  /** An input that every rule accepts. */
  predicate Valid(u: UserInput)
  {
    Holds(Presence, u) && Holds(PasswordLength, u) && Holds(EmailFormat, u) && Holds(RoleValue, u)
  }

  /** The error a broken rule is reported with. */
  function RuleError(rule: Rule): (e: Error)
    ensures e.code == 400
  {
    match rule
    case Presence => Error(400, MissingFields)
    case PasswordLength => Error(400, ShortPassword)
    case EmailFormat => Error(400, InvalidEmail)
    case RoleValue => Error(400, InvalidRole)
  }

  /** The position of the first rule in `rules` that `u` breaks, or |rules| if none. */
  function FirstBroken(rules: seq<Rule>, u: UserInput): (k: nat)
    ensures k <= |rules|
    ensures forall j :: 0 <= j < k ==> Holds(rules[j], u)
    ensures k < |rules| ==> !Holds(rules[k], u)
  {
    if rules == [] then 0
    else if !Holds(rules[0], u) then 0
    else 1 + FirstBroken(rules[1..], u)
  }

  /** A registration input that passed validation, with its role parsed. */
  datatype Registration = Registration(name: string, email: string, password: string, role: Role)

  /** The validation chain of `createUser`, written as `createUser` checks it:
      falsy fields, then `password.length < 6`, then `email.indexOf("@") === -1`,
      then a role other than ADMIN and NORMAL. */
  function ValidateRegistration(u: UserInput): (r: Result<Registration, Error>)
    ensures r.Success? <==> Valid(u)
    ensures r.Failure? ==> r.error.code == 400
    ensures r.Success? ==> && r.value.name == u.name && r.value.email == u.email
                           && r.value.password == u.password && RoleName(r.value.role) == u.role
  {
    if u.name == "" || u.email == "" || u.password == "" || u.role == "" then
      Failure(Error(400, MissingFields))
    else if JsString.Length(u.password) < 6 then
      Failure(Error(400, ShortPassword))
    else if JsString.IndexOf(u.email, '@') == -1 then
      Failure(Error(400, InvalidEmail))
    else if u.role != RoleName(ADMIN) && u.role != RoleName(NORMAL) then
      Failure(Error(400, InvalidRole))
    else
      Success(Registration(u.name, u.email, u.password, if u.role == RoleName(ADMIN) then ADMIN else NORMAL))
  }

  // ---------------------------------------------------------------------------
  // Registration

  /** The calls a registration makes when nothing fails, in order. */
  const RegisterSteps: seq<CallKind> := [IdKind, HashKind, CreateKind, TokenKind]

  /** `createUser`: validate, then generate an id, hash the password, store the
      account and issue a token for the new id and role. */
  function CreateUser(env: Collaborators, store: Store, u: UserInput): (run: Run)
    // the store only changes on success
    ensures run.outcome.Failed? ==> run.store == store
    // a request that fails validation calls nothing and reports the broken rule
    ensures ValidateRegistration(u).Failure? ==>
      run.calls == [] && run.outcome == Failed(ValidateRegistration(u).error)
    // a token is issued exactly when validation passes and the hash and the write both resolve
    ensures run.outcome.Issued? <==>
      && ValidateRegistration(u).Success?
      && env.hash(u.password).Success?
      && env.createFault(store, Account(env.generateId(), u.email, u.name, env.hash(u.password).value,
                                        ValidateRegistration(u).value.role)).None?
  {
    match ValidateRegistration(u)
    case Failure(e) => Run(Failed(e), [], store)
    case Success(reg) =>
      var id := env.generateId();
      match env.hash(u.password)
      case Failure(e) => Run(Failed(e), [GenerateId, Hash(u.password)], store)
      case Success(hashed) =>
        var account := Account(id, u.email, u.name, hashed, reg.role);
        var calls := [GenerateId, Hash(u.password), InsertUser(account)];
        match StoreCreate(env, store, account)
        case Failure(e) => Run(Failed(e), calls, store)
        case Success(stored) =>
          var claims := Claims(id, reg.role);
          Run(Issued(env.generateToken(claims)), calls + [GenerateToken(claims)], stored)
  }

  // ---------------------------------------------------------------------------
  // Login

  /** The calls a login makes when nothing fails, in order. */
  const LoginSteps: seq<CallKind> := [LookupKind, CompareKind, TokenKind]

  /** `login`: check presence, look the account up by email, compare the
      password with the stored hash, and issue a token for the stored id and role. */
  function Login(env: Collaborators, store: Store, u: LoginInput): (run: Run)
    // login only reads the store
    ensures run.store == store
    ensures u.email == "" || u.password == "" ==>
      run == Run(Failed(Error(400, MissingCredentials)), [], store)
    ensures u.email != "" && u.password != "" ==> |run.calls| >= 1 && run.calls[0] == GetUserByEmail(u.email)
    // an unknown email is reported before any comparison
    ensures u.email != "" && u.password != "" && env.lookupFault(store, u.email).None? && u.email !in store ==>
      run == Run(Failed(Error(404, UserNotFound)), [GetUserByEmail(u.email)], store)
    // success: the token carries the stored id and role, not anything from the input
    ensures run.outcome.Issued? <==>
      && u.email != "" && u.password != ""
      && env.lookupFault(store, u.email).None? && u.email in store
      && env.compare(u.password, store[u.email].password) == Success(true)
    ensures run.outcome.Issued? ==>
      run.outcome.token == env.generateToken(Claims(store[u.email].id, store[u.email].role))
  {
    if u.email == "" || u.password == "" then
      Run(Failed(Error(400, MissingCredentials)), [], store)
    else
      var lookup := [GetUserByEmail(u.email)];
      match StoreLookup(env, store, u.email)
      case Failure(e) => Run(Failed(e), lookup, store)
      case Success(None) => Run(Failed(Error(404, UserNotFound)), lookup, store)
      case Success(Some(found)) =>
        var compared := lookup + [Compare(u.password, found.password)];
        match env.compare(u.password, found.password)
        case Failure(e) => Run(Failed(e), compared, store)
        case Success(false) => Run(Failed(Error(401, InvalidCredentials)), compared, store)
        case Success(true) =>
          var claims := Claims(found.id, found.role);
          Run(Issued(env.generateToken(claims)), compared + [GenerateToken(claims)], store)
  }
}

=== FILE: user_business_properties.dfy ===
/** Properties of registration and login that relate the operations to their
    rules, to the order of collaborator calls, and to each other. */
module UserBusinessProperties {
  import opened Wrappers
  import opened Errors
  import opened User
  import opened Services
  import opened UserBusiness
  import JsString

  // ---------------------------------------------------------------------------
  // Validation

  /** Validation reports the first rule, in checking order, that the input
      breaks, and accepts exactly when no rule is broken. */
  lemma FirstViolationWins(u: UserInput)
    ensures var k := FirstBroken(Order, u);
      && (k == |Order| <==> ValidateRegistration(u).Success?)
      && (k < |Order| ==> ValidateRegistration(u) == Failure(RuleError(Order[k])))
  {
    var k := FirstBroken(Order, u);
    if k == |Order| {
      assert Holds(Order[0], u) && Holds(Order[1], u) && Holds(Order[2], u) && Holds(Order[3], u);
    } else if k == 0 {
    } else if k == 1 {
      assert Holds(Order[0], u);
    } else if k == 2 {
      assert Holds(Order[0], u) && Holds(Order[1], u);
    } else {
      assert Holds(Order[0], u) && Holds(Order[1], u) && Holds(Order[2], u);
    }
  }

  /** Every rejection names one rule: different rules have different messages. */
  lemma RuleErrorsDistinct(a: Rule, b: Rule)
    ensures RuleError(a) == RuleError(b) ==> a == b
  {
  }

  /** The length rule counts UTF-16 code units: six characters always suffice,
      fewer than three never do, and for text without surrogate pairs the rule
      is exactly "at least six characters". */
  lemma PasswordLengthInChars(u: UserInput)
    ensures |u.password| >= 6 ==> Holds(PasswordLength, u)
    ensures |u.password| < 3 ==> !Holds(PasswordLength, u)
    ensures JsString.InBmp(u.password) ==> (Holds(PasswordLength, u) <==> |u.password| >= 6)
  {
    JsString.LengthCountsChars(u.password);
  }

  // ---------------------------------------------------------------------------
  // Registration

  /** Registration calls the id generator, the hasher, the store and the token
      issuer in that order, each at most once; a failure stops the sequence, and
      a token is issued exactly when all four calls were made. The store write,
      when made, is the third call and the only one. */
  lemma RegisterCallOrder(env: Collaborators, store: Store, u: UserInput)
    ensures var run := CreateUser(env, store, u);
      && Kinds(run.calls) <= RegisterSteps
      && (run.outcome.Issued? <==> Kinds(run.calls) == RegisterSteps)
      && (forall i :: 0 <= i < |run.calls| && run.calls[i].InsertUser? ==> i == 2)
  {
  }

  /** On success the store receives the generated id, the input's email and
      name, the hash of the input password and the input role, and the token is
      issued for that id and role. */
  lemma RegisterSuccess(env: Collaborators, store: Store, u: UserInput)
    ensures var run := CreateUser(env, store, u);
      run.outcome.Issued? ==>
      && ValidateRegistration(u).Success?
      && env.hash(u.password).Success?
      && var id := env.generateId();
         var role := ValidateRegistration(u).value.role;
         var account := Account(id, u.email, u.name, env.hash(u.password).value, role);
      && RoleName(role) == u.role
      && run.calls == [GenerateId, Hash(u.password), InsertUser(account), GenerateToken(Claims(id, role))]
      && run.outcome.token == env.generateToken(Claims(id, role))
      && run.store == store[u.email := account]
  {
  }

  /** A successful registration changes the store only by filing the new
      account under its email: that key is added or replaced, every other entry
      stays as it was. */
  lemma RegisterStoreEffect(env: Collaborators, store: Store, u: UserInput)
    ensures var run := CreateUser(env, store, u);
      && (run.outcome.Issued? ==> run.store.Keys == store.Keys + {u.email})
      && (run.outcome.Issued? ==> forall e :: e in store && e != u.email ==> run.store[e] == store[e])
  {
  }

  /** Registration keeps every account filed under its own email. */
  lemma RegisterKeepsStoreKeyed(env: Collaborators, store: Store, u: UserInput)
    requires KeyedByEmail(store)
    ensures KeyedByEmail(CreateUser(env, store, u).store)
  {
  }

  /** A rejection by the hasher or by the store ends registration with that very
      error, and no token is issued. */
  lemma RegisterPassThrough(env: Collaborators, store: Store, u: UserInput)
    ensures var run := CreateUser(env, store, u);
      && (ValidateRegistration(u).Success? && env.hash(u.password).Failure? ==>
            && run.outcome == Failed(env.hash(u.password).error)
            && run.calls == [GenerateId, Hash(u.password)])
      && (ValidateRegistration(u).Success? && env.hash(u.password).Success? ==>
            var account := Account(env.generateId(), u.email, u.name, env.hash(u.password).value,
                                   ValidateRegistration(u).value.role);
            env.createFault(store, account).Some? ==>
              && run.outcome == Failed(env.createFault(store, account).value)
              && run.calls == [GenerateId, Hash(u.password), InsertUser(account)]
              && run.store == store)
  {
  }

  // ---------------------------------------------------------------------------
  // Login

  /** Login looks up, then compares, then issues, each at most once; a failure
      stops the sequence, and a token is issued exactly when all three calls
      were made. */
  lemma LoginCallOrder(env: Collaborators, store: Store, u: LoginInput)
    ensures var run := Login(env, store, u);
      && Kinds(run.calls) <= LoginSteps
      && (run.outcome.Issued? <==> Kinds(run.calls) == LoginSteps)
  {
  }

  /** How a login that found the account can fail: a rejected lookup or
      comparison passes its error through; a comparison that answers false
      gives 401 and issues no token. */
  lemma LoginRejections(env: Collaborators, store: Store, u: LoginInput)
    requires u.email != "" && u.password != ""
    ensures var run := Login(env, store, u);
      && (env.lookupFault(store, u.email).Some? ==>
            run == Run(Failed(env.lookupFault(store, u.email).value), [GetUserByEmail(u.email)], store))
      && (env.lookupFault(store, u.email).None? && u.email in store ==>
            var hashed := store[u.email].password;
            var compared := [GetUserByEmail(u.email), Compare(u.password, hashed)];
            && (env.compare(u.password, hashed) == Success(false) ==>
                  run == Run(Failed(Error(401, InvalidCredentials)), compared, store))
            && (env.compare(u.password, hashed).Failure? ==>
                  run == Run(Failed(env.compare(u.password, hashed).error), compared, store)))
  {
  }

  /** A successful login issues its token for the stored account's id and role,
      as the last of its three calls. */
  lemma LoginSuccess(env: Collaborators, store: Store, u: LoginInput)
    ensures var run := Login(env, store, u);
      run.outcome.Issued? ==>
      && u.email in store
      && var account := store[u.email];
      && run.calls == [GetUserByEmail(u.email), Compare(u.password, account.password),
                       GenerateToken(Claims(account.id, account.role))]
  {
  }

  // ---------------------------------------------------------------------------
  // Registration followed by login

  /** Logging in with the email and password just registered succeeds, and its
      token is issued for the same id and role as the registration token,
      provided the hasher recognises its own hash and the store answers the
      lookup. For an email already on file this relies on the store's write
      replacing the old account (see `Services.StoreCreate`). */
  lemma RegisteredUserCanLogIn(env: Collaborators, store: Store, u: UserInput)
    ensures var registered := CreateUser(env, store, u);
      && registered.outcome.Issued?
      && env.hash(u.password).Success?
      && env.compare(u.password, env.hash(u.password).value) == Success(true)
      && env.lookupFault(registered.store, u.email).None?
      ==>
      var login := Login(env, registered.store, LoginInput(u.email, u.password));
      && login.outcome.Issued?
      && login.calls[2] == registered.calls[3]
      && login.store == registered.store
  {
  }

  /** After registering, a login with the same email but another non-empty
      password that the hasher does not match against the stored hash is
      refused with 401. For an email already on file this relies on the store's
      write replacing the old account (see `Services.StoreCreate`). */
  lemma WrongPasswordAfterRegistration(env: Collaborators, store: Store, u: UserInput, other: string)
    ensures var registered := CreateUser(env, store, u);
      && registered.outcome.Issued?
      && env.hash(u.password).Success?
      && other != ""
      && env.compare(other, env.hash(u.password).value) == Success(false)
      && env.lookupFault(registered.store, u.email).None?
      ==>
      Login(env, registered.store, LoginInput(u.email, other)).outcome == Failed(Error(401, InvalidCredentials))
  {
  }
}

=== FILE: wrappers.dfy ===
/** Failure-carrying datatypes shared by the model. */
module Wrappers {

  /** A value that may be absent, such as the row a lookup did not find. */
  datatype Option<+T> = None | Some(value: T)

  /** The settled value of an awaited call: a value, or the error it was rejected with. */
  datatype Result<+R, +E> = Success(value: R) | Failure(error: E)
}

/** The errors that cross the boundary of the core. */
module Errors {

  /** A classified error: a numeric status code and a human-readable message.
      Errors raised by the core itself carry 400, 401 or 404; errors raised by
      a collaborator are arbitrary values of this type and pass through unchanged. */
  datatype Error = Error(code: int, message: string)
}
